=== FILE: README.md ===
# hell — dispatch model

`hell` is a small Rust command-line front end for the `hellbox` task runner.
It turns a subcommand (`init`, `install`, `add`, `remove`, `run`, `inspect`,
`environment`, `_postinstall`) into one or more runs of the `uv` environment
manager. It writes one bootstrap file, `Hellfile.py`, when that file is
missing, and reports the outcome as a `Result<i32, String>`.

This project models that decision logic as pure Dafny functions:

- `Cli.Dispatch` takes the subcommand clap matched, the fixed configuration
  and a `World`. It returns a `Run`: the ending, the invocations issued in
  order (tool, argument vector and stdio mode), and the manifest file's
  contents afterwards.
- The `World` holds everything outside the program. It says whether the
  manifest exists and what it holds, and what the file system does when the
  manifest is created. It also gives the outcome of the k-th child process
  started through `run_command`, `children(k)`. The probes of `environment`
  and `_postinstall` are started too, but their outcomes never reach the
  result, so they take no index.
- A child either fails to spawn, fails to be waited on, or runs. A run ends
  with an exit code or with none (killed by a signal), plus its captured
  standard output.
- The program's `.expect()` calls abort it. They are modelled as a third
  ending, `Panic(message)`, next to `Ok(code)` and `Err(message)`.
- `Program` builds the inline `python -c` program for `run` and `inspect`.
  It uses plain interpolation with no escaping. To say what that means, the
  model includes Python's rule for where a short double-quoted string literal
  ends (section 2.4.1 of the Python Language Reference): a backslash takes the
  next character with it, and an unescaped line break ends the line first.
- `Packages` holds the pure part of `check_package_version`. It picks the
  first `pip list` line that starts with the package name and collapses its
  whitespace to single spaces. `Text` models the Rust string functions it
  uses: `lines`, `starts_with`, `trim_end`, `split_whitespace`, `join` and
  `char::is_whitespace`.

Three points where the code behaves differently from what one might expect
of such a tool; the model follows the code:

- `install` takes no package argument; only `add` and `remove` have one.
- `main` throws away the `Ok` code and prints only errors, so no exit code is
  forwarded.
- In `run_command`, a missing tool or a failed wait panics through
  `.expect()`; it is not turned into a recoverable error. The `environment`
  and `_postinstall` probes treat a missing tool as an ordinary result: it
  changes only what is printed, and both commands still return `Ok(0)`.

## Model

| member | source | states |
|---|---|---|
| Process.RunCommand | src/main.rs:258-273 | any exit code, zero or not, is `Ok(code)`; only a child without an exit code gives `Err("<tool> failed with no status code")`; spawn or wait failure panics |
| Manifest.CreateManifest | src/main.rs:239-248 | an existing file is left as it is and gives `Ok(0)`; otherwise the exact bootstrap text is written (`Ok(0)`), a failed write gives `Err("Hellbox.py failed to write")` and leaves a prefix of the text, and a failed create panics |
| Manifest.CreateTwice | src/main.rs:239-248 | after a call that did not panic, a second call writes nothing and returns `Ok(0)` |
| Manifest.FailedWriteIsPermanent | src/main.rs:239-248 | a manifest left truncated by a failed write is never replaced by a later call |
| Cli.Dispatch | src/main.rs:78-93 | the result is `Err("Subcommand not provided")` exactly when there are no matches or the name is not one of the eight; the manifest changes only for `init` with matches and no manifest before; at most three invocations; `environment` and `_postinstall` end in `Ok(0)` |
| Cli.Classify | src/main.rs:82-92 | the command is unrecognised exactly when there are no matches or the name is not one of the eight subcommand names; a recognised command carries its own name |
| Cli.ClassifyName | src/main.rs:82-90 | every recognised command, with its argument, is what its own name and matches classify as |
| Cli.Execute | src/main.rs:97-186 | only `init` changes the manifest, and only when none existed; at most three invocations; `Err("Subcommand not provided")` exactly for an unrecognised command; `environment` and `_postinstall` end in `Ok(0)`; nothing is issued exactly for an unrecognised command, `remove` without a package, or `run`/`inspect` without a manifest; only the probes are not interactive and every interactive call runs `uv` |
| Cli.UnknownSubcommand | src/main.rs:82-92 | an unknown name, or a name without matches, yields `Err("Subcommand not provided")` with no invocation and no file change |
| Cli.RemoveArguments | src/main.rs:120-127 | `remove` without a package is `Err("a package name is required")` with no invocation; with one it issues exactly `uv ["remove", name]` and returns that child's translation |
| Cli.AddArguments | src/main.rs:105-118 | `add` without a package behaves exactly like `install`: it issues one `uv ["sync"]` and returns that child's translated outcome; with one it issues exactly `uv ["add", name]` and returns its outcome; neither touches the manifest |
| Cli.MissingManifest | src/main.rs:129-147 | `run` and `inspect` without a manifest file give `Err("No manifest file exists")` and issue nothing |
| Cli.RunProgramText | src/main.rs:129-138 | with a manifest, `run` issues one `uv ["run","python","-c",P]` with `P` the exec-manifest, import-hellbox, `run_task("<name>")` program, the name defaulting to `"default"` |
| Cli.InspectProgramText | src/main.rs:140-147 | with a manifest, `inspect` issues one `uv ["run","python","-c",P]` with `P` ending in `hellbox.Hellbox.inspect()` |
| Cli.InitChain | src/main.rs:97-103 | `init` issues `uv ["init"]`, then `uv ["add", package]`, then the manifest step; each runs only if the step before returned an exit code, and the first step without one ends the chain with its error |
| Cli.InitTwice | src/main.rs:97-103 | a second `init` after one that left a manifest never changes that file |
| Cli.InformationalCommands | src/main.rs:149-186 | `environment` issues the three captured probes and `_postinstall` the silenced `uv --version` probe, and both return `Ok(0)` whatever the probes report |
| Cli.DefaultRun | src/main.rs:129-138 | with the configuration `main` builds and a manifest, `run` without a task runs `exec(open("Hellfile.py").read()); import hellbox; hellbox.Hellbox.run_task("default")` |
| Cli.DefaultInit | src/main.rs:97-103 | with the configuration `main` builds, the second step of `init` is `uv add git+git://github.com/hellboxpy/hellbox.git#egg=hellbox` |
| Program.HellboxProgram | src/main.rs:275-283 | the program opens with `exec(open("`, its file-path literal holds exactly the path, and, read as a short literal, it closes at the intended quote iff the path reads whole as a literal body: every `"` and line break in it escaped by an odd run of backslashes, and no odd run of backslashes at its end |
| Program.TaskLiteral | src/main.rs:289-294 | the task-name literal of the `run` program holds exactly the name, and, read as a short literal, it closes at the intended quote iff the name reads whole as a literal body |
| Program.LiteralBodyExamples | src/main.rs:289-294 | `default`, `a\\` and `a\"b` are literal bodies; `a\`, `a"b` and a name holding a bare line feed are not |
| Program.TaskLiteralExamples | src/main.rs:289-294 | with the task name `a\` the literal stays open to the end of the program, and with `a"b` it closes right after the `a` |
| Packages.FirstIndex | src/main.rs:212 | the position of the first line with the prefix: no earlier line has it, and the found line does |
| Packages.PackageLine | src/main.rs:207-218 | `None` exactly when no line of the listing starts with the name |
| Packages.PackageLineSpec | src/main.rs:210-217 | a package line has exactly the tokens of the first matching line, is in single-space normal form, and starts with the name when the name is one whitespace-free word |
| Packages.Normalise | src/main.rs:213-216 | the normalised line is the line with its whitespace collapsed character by character: leading and trailing whitespace dropped, each inner run of whitespace one space |
| Packages.NormaliseSpec | src/main.rs:213-216 | the normalised line is in normal form, keeps the line's tokens, and is the only normal-form string with those tokens |
| Packages.NormaliseIdempotent | src/main.rs:213-216 | normalising twice equals normalising once |
| Packages.NormaliseKeepsName | src/main.rs:212-216 | a line starting with a non-empty, whitespace-free name still starts with it after normalisation |
| Packages.CheckPackageVersion | src/main.rs:202-221 | a version is reported exactly when the listing command ran and one of its output lines starts with the name; the report has the tokens of the first such line, is in single-space normal form, and starts with the name when the name is non-empty and whitespace-free |
| Text.TrimEnd | src/main.rs:213 | the result is a prefix that does not end in whitespace, and only whitespace was removed |
| Text.SplitWhitespace | src/main.rs:214 | every token is non-empty and free of whitespace; there are no tokens exactly when the input is all whitespace |
| Text.SplitJoinCollapse | src/main.rs:214-216 | for every string, joining the `split_whitespace` tokens with single spaces gives the character-by-character collapse of its whitespace, so the tokens are its whitespace-free runs in order |
| Text.TrimEndKeepsWords | src/main.rs:213-214 | trimming the end before splitting does not change the tokens |
| Text.SplitJoin | src/main.rs:214-216 | splitting whitespace-free words joined by single spaces gives the words back |
| Text.JoinWordsCanonical | src/main.rs:214-216 | words joined by single spaces have no leading or trailing whitespace and no two adjacent spaces |
| Text.CanonicalIsJoin | src/main.rs:214-216 | a normal-form string is the single-space join of its own tokens |
| Text.Lines | src/main.rs:210 | no line contains a line feed; there are no lines exactly when the text is empty |
| Text.LinesRoundTrip | src/main.rs:210 | without carriage returns, joining the lines with line feeds rebuilds the text, apart from an optional final line feed |

## Left out

- Process spawning, stdio wiring and waiting are operating-system I/O. They become the `children` outcome of `World`. The stdio setting survives only as the `Mode` label of each invocation.
- The UTF-8 decoding of captured output (`String::from_utf8(..).unwrap()`, src/main.rs:209 and 228) is left out. Captured output is already a string in the model, so that panic cannot happen there.
- The clap grammar, help text and `ArgRequiredElseHelp` behaviour (src/main.rs:33-76) belong to a library that is not part of this model. The model starts from the matched `(name, Option<matches>)` pair.
- Printed output is cosmetic and left out. This covers every `println!`/`eprintln!`, the colouring, `crate_version!`, and the text of the missing-tool hint. The value `check_version` trims (src/main.rs:223-233) is only printed, so only its probe invocation is modelled.
- The process exit status is left out: `main` (src/main.rs:27-30) prints an error and otherwise ignores the result.
- The check-then-write race on the manifest file with a concurrent instance is left out.
- The file system is reduced to the manifest path. The model assumes `uv init` and `uv add` never create or change `Hellfile.py`.
- Manifest.CreateManifest: how many bytes a failing `write_all` left on disk is an input (`WriteFails(written)`, capped at the payload length). The model promises only that a prefix of the bootstrap text remains.
- Program.TaskLiteral: Python's tokenizer turns a carriage return and line feed into one line feed before it reads the literal. So backslash, carriage return, line feed continues the literal, while the model lets the backslash take the carriage return and the line feed then end the line. A name that opens with two quotes, or is a single quote, puts three quotes after `run_task(`, so Python reads a triple-quoted literal, which the model does not follow: `""abc""` gives the valid `run_task("""abc""")`, while the model closes the literal at once. Whether the rest of the program parses and runs is not modelled.
- Program.HellboxProgram: the same carriage-return and triple-quote cases as for the task name apply to the file path, and whether the rest of the program parses and runs is not modelled.
- Text.Lines: follows the current Rust `lines`. A carriage return is dropped only in front of a line feed, so a lone `'\r'` at the very end of the text stays in the last line.

=== FILE: cli.dfy ===
/**
 * The `hell` command-line front end: from the subcommand clap matched to the
 * external invocations the CLI issues, in order, the manifest file it leaves
 * behind and the result `dispatch` returns.
 *
 * Everything outside the program is an input of `World`: whether the
 * manifest file exists (and what it holds), what the file system does when
 * the manifest is created, and the outcome of the k-th child process the
 * CLI starts through `run_command`, `children(k)`. The probes of
 * `environment` and `_postinstall` are started too, but their outcomes never
 * reach the result, so they take no index.
 */
module Cli {
  import opened Wrappers
  import opened Process
  import opened Manifest
  import opened Program

  /** The fixed settings `main` builds once and passes to `dispatch`. */
  datatype Config = Config(manifestFilename: string, hellboxPackage: string)

  const Defaults: Config :=
    Config("Hellfile.py", "git+git://github.com/hellboxpy/hellbox.git#egg=hellbox")

  /** The positional arguments clap matched for a subcommand, by argument name. */
  datatype Matches = Matches(values: map<string, string>)

  /** `ArgMatches::value_of`. */
  function ValueOf(m: Matches, key: string): Option<string> {
    if key in m.values then Some(m.values[key]) else None
  }

  /** The subcommands `dispatch` tells apart. */
  datatype Command =
    | Init
    | Install
    | Add(package: Option<string>)
    | Remove(package: Option<string>)
    | RunTask(task: Option<string>)
    | Inspect
    | Environment
    | PostInstall
    | Unrecognised

  const KnownNames: set<string> :=
    {"init", "install", "add", "remove", "run", "inspect", "environment", "_postinstall"}

  const NoSubcommand: string := "Subcommand not provided"
  const PackageRequired: string := "a package name is required"
  const NoManifest: string := "No manifest file exists"

  /** The subcommand name each recognised command is invoked by. */
  function Name(c: Command): string
    requires !c.Unrecognised?
  {
    match c
    case Init => "init"
    case Install => "install"
    case Add(_) => "add"
    case Remove(_) => "remove"
    case RunTask(_) => "run"
    case Inspect => "inspect"
    case Environment => "environment"
    case PostInstall => "_postinstall"
  }

  /** The matches clap produces for a recognised command's own argument. */
  function MatchesOf(c: Command): Matches
    requires !c.Unrecognised?
  {
    match c
    case Add(Some(p)) => Matches(map["package" := p])
    case Remove(Some(p)) => Matches(map["package" := p])
    case RunTask(Some(t)) => Matches(map["task" := t])
    case _ => Matches(map[])
  }

  /** The match in `dispatch` over `(name, Option<&ArgMatches>)`. */
  function Classify(name: string, matches: Option<Matches>): (c: Command)
    ensures c.Unrecognised? <==> matches.None? || name !in KnownNames
    ensures !c.Unrecognised? ==> Name(c) == name
  {
    match matches
    case None => Unrecognised
    case Some(m) =>
      if name == "init" then Init
      else if name == "install" then Install
      else if name == "add" then Add(ValueOf(m, "package"))
      else if name == "remove" then Remove(ValueOf(m, "package"))
      else if name == "run" then RunTask(ValueOf(m, "task"))
      else if name == "inspect" then Inspect
      else if name == "environment" then Environment
      else if name == "_postinstall" then PostInstall
      else Unrecognised
  }

  /** Round trip: every recognised command is what its own name and matches classify as. */
  lemma ClassifyName(c: Command)
    requires !c.Unrecognised?
    ensures Classify(Name(c), Some(MatchesOf(c))) == c
  {
    match c
    case Add(p) => assert ValueOf(MatchesOf(c), "package") == p;
    case Remove(p) => assert ValueOf(MatchesOf(c), "package") == p;
    case RunTask(t) => assert ValueOf(MatchesOf(c), "task") == t;
    case _ =>
  }

  // ---------------------------------------------------------------------
  // The world outside the program and what a run leaves behind

  datatype World = World(manifest: Option<string>, creation: Creation, children: nat -> Child)

  /** The result, the invocations issued in order, and the manifest file afterwards. */
  datatype Run = Run(ending: Ending, issued: seq<Invocation>, manifest: Option<string>)

  // ---------------------------------------------------------------------
  // Actions: the invocations each action of the source issues

  /** An invocation made through `run_command`. */
  function Call(tool: string, args: seq<string>): Invocation {
    Invocation(Interactive, tool, args)
  }

  function CreateProject(): Invocation { Call("uv", ["init"]) }

  function InstallDependencies(): Invocation { Call("uv", ["sync"]) }

  function InstallPackage(name: string): Invocation { Call("uv", ["add", name]) }

  function UninstallPackage(name: string): Invocation { Call("uv", ["remove", name]) }

  function RunHellboxCommands(filepath: string, commands: seq<string>): Invocation {
    Call("uv", ["run", "python", "-c", HellboxProgram(filepath, commands)])
  }

  function RunTaskCommand(filepath: string, name: string): Invocation {
    RunHellboxCommands(filepath, [TaskCall(name)])
  }

  function RunInspect(filepath: string): Invocation {
    RunHellboxCommands(filepath, [InspectCall])
  }

  /** The listing `check_package_version` reads. */
  const PackageListing: Invocation := Invocation(Captured, "uv", ["run", "pip", "list"])

  /** The probe `check_version` runs. */
  function VersionProbe(tool: string): Invocation {
    Invocation(Captured, tool, ["--version"])
  }

  /** The probe `check_command` runs from `_postinstall`. */
  function ToolProbe(tool: string): Invocation {
    Invocation(Silenced, tool, ["--version"])
  }

  // ---------------------------------------------------------------------
  // Sequencing

  /** Nothing issued and nothing failed yet. */
  function Idle(w: World): Run {
    Run(Ok(0), [], w.manifest)
  }

  /** A failure decided before any process is started. */
  function Refuse(message: string, w: World): Run {
    Run(Err(message), [], w.manifest)
  }

  /**
   * `and_then` followed by `run_command`: when `r` succeeded, issue `inv`,
   * which meets the next child outcome, and end with its translation;
   * otherwise stop with `r`.
   */
  function AndThen(r: Run, inv: Invocation, w: World): Run {
    if r.ending.Ok? then
      Run(RunCommand(inv.tool, w.children(|r.issued|)), r.issued + [inv], r.manifest)
    else r
  }

  /** `and_then` followed by `create_manifest`. */
  function AndThenManifest(r: Run, w: World): Run {
    if r.ending.Ok? then
      var (e, m) := CreateManifest(r.manifest, w.creation);
      Run(e, r.issued, m)
    else r
  }

  /** A best-effort probe: issued, but its outcome never changes the result. */
  function Probe(r: Run, inv: Invocation): Run {
    Run(r.ending, r.issued + [inv], r.manifest)
  }

  // ---------------------------------------------------------------------
  // Handlers

  function HandleInit(cfg: Config, w: World): Run {
    var created := AndThen(Idle(w), CreateProject(), w);
    var installed := AndThen(created, InstallPackage(cfg.hellboxPackage), w);
    AndThenManifest(installed, w)
  }

  function HandleInstall(w: World): Run {
    AndThen(Idle(w), InstallDependencies(), w)
  }

  function HandleAdd(package: Option<string>, w: World): Run {
    match package
    case Some(name) => AndThen(Idle(w), InstallPackage(name), w)
    case None => AndThen(Idle(w), InstallDependencies(), w)
  }

  function HandleRemove(package: Option<string>, w: World): Run {
    match package
    case Some(name) => AndThen(Idle(w), UninstallPackage(name), w)
    case None => Refuse(PackageRequired, w)
  }

  function HandleRun(cfg: Config, task: Option<string>, w: World): Run {
    var name := task.GetOr("default");
    if w.manifest.None? then Refuse(NoManifest, w)
    else AndThen(Idle(w), RunTaskCommand(cfg.manifestFilename, name), w)
  }

  function HandleInspect(cfg: Config, w: World): Run {
    if w.manifest.None? then Refuse(NoManifest, w)
    else AndThen(Idle(w), RunInspect(cfg.manifestFilename), w)
  }

  function HandleEnvironment(w: World): Run {
    var probed := Probe(Probe(Probe(Idle(w), PackageListing), VersionProbe("python")), VersionProbe("uv"));
    Run(Ok(0), probed.issued, probed.manifest)
  }

  function HandlePostinstall(w: World): Run {
    var probed := Probe(Idle(w), ToolProbe("uv"));
    Run(Ok(0), probed.issued, probed.manifest)
  }

  /** The handler `dispatch` selects, applied. */
  function Execute(cfg: Config, c: Command, w: World): (r: Run)
    ensures r.manifest != w.manifest ==> c.Init? && w.manifest.None?
    ensures |r.issued| <= 3
    ensures r.ending == Err(NoSubcommand) <==> c.Unrecognised?
    ensures (c.Environment? || c.PostInstall?) ==> r.ending == Ok(0)
    ensures r.issued == [] <==>
      || c.Unrecognised?
      || c == Remove(None)
      || ((c.RunTask? || c.Inspect?) && w.manifest.None?)
    ensures forall i :: 0 <= i < |r.issued| ==>
      (r.issued[i].mode == Interactive <==> !(c.Environment? || c.PostInstall?))
    ensures forall i :: 0 <= i < |r.issued| && r.issued[i].mode == Interactive ==>
      r.issued[i].tool == "uv"
  {
    match c
    case Init => HandleInit(cfg, w)
    case Install => HandleInstall(w)
    case Add(package) => HandleAdd(package, w)
    case Remove(package) => HandleRemove(package, w)
    case RunTask(task) => HandleRun(cfg, task, w)
    case Inspect => HandleInspect(cfg, w)
    case Environment => HandleEnvironment(w)
    case PostInstall => HandlePostinstall(w)
    case Unrecognised => Refuse(NoSubcommand, w)
  }

  /**
   * `dispatch`: routes the matched subcommand to its handler. Only a known
   * name with matches avoids the "not provided" error, only `init` can create
   * the manifest, and the informational commands always succeed.
   */
  function Dispatch(cfg: Config, name: string, matches: Option<Matches>, w: World): (r: Run)
    ensures r.ending == Err(NoSubcommand) <==> matches.None? || name !in KnownNames
    ensures r.manifest != w.manifest ==> name == "init" && matches.Some? && w.manifest.None?
    ensures |r.issued| <= 3
    ensures matches.Some? && (name == "environment" || name == "_postinstall") ==> r.ending == Ok(0)
  {
    Execute(cfg, Classify(name, matches), w)
  }

  // ---------------------------------------------------------------------
  // Properties of dispatch

  /** A name outside the eight, or no matches, is refused before anything runs. */
  lemma UnknownSubcommand(cfg: Config, name: string, matches: Option<Matches>, w: World)
    requires matches.None? || name !in KnownNames
    ensures Dispatch(cfg, name, matches, w) == Run(Err("Subcommand not provided"), [], w.manifest)
  {
  }

  /** `remove` needs a package; with one it runs exactly `uv remove <name>`. */
  lemma RemoveArguments(cfg: Config, m: Matches, w: World)
    ensures var r := Dispatch(cfg, "remove", Some(m), w);
      match ValueOf(m, "package")
      case None => r == Run(Err("a package name is required"), [], w.manifest)
      case Some(name) =>
        && r.issued == [Invocation(Interactive, "uv", ["remove", name])]
        && r.ending == RunCommand("uv", w.children(0))
        && r.manifest == w.manifest
  {
  }

  /** `add` with a package runs exactly `uv add <name>`; without one it is `install`. */
  lemma AddArguments(cfg: Config, m: Matches, n: Matches, w: World)
    ensures var r := Dispatch(cfg, "add", Some(m), w);
      match ValueOf(m, "package")
      case None =>
        && r == Dispatch(cfg, "install", Some(n), w)
        && r.issued == [Invocation(Interactive, "uv", ["sync"])]
        && r.ending == RunCommand("uv", w.children(0))
        && r.manifest == w.manifest
      case Some(name) =>
        && r.issued == [Invocation(Interactive, "uv", ["add", name])]
        && r.ending == RunCommand("uv", w.children(0))
        && r.manifest == w.manifest
  {
  }

  /** `run` and `inspect` without a manifest file fail before anything runs. */
  lemma MissingManifest(cfg: Config, m: Matches, w: World)
    requires w.manifest.None?
    ensures Dispatch(cfg, "run", Some(m), w) == Run(Err("No manifest file exists"), [], None)
    ensures Dispatch(cfg, "inspect", Some(m), w) == Run(Err("No manifest file exists"), [], None)
  {
  }

  /**
   * With a manifest, `run` issues one `uv run python -c P` whose program
   * executes the manifest and runs the named task, `"default"` when no task
   * was named.
   */
  lemma RunProgramText(cfg: Config, m: Matches, w: World)
    requires w.manifest.Some?
    ensures var r := Dispatch(cfg, "run", Some(m), w);
      var name := if "task" in m.values then m.values["task"] else "default";
      && r.issued == [Invocation(Interactive, "uv", ["run", "python", "-c",
           "exec(open(\"" + cfg.manifestFilename + "\").read()); import hellbox; hellbox.Hellbox.run_task(\""
           + name + "\")"])]
      && r.ending == RunCommand("uv", w.children(0))
      && r.manifest == w.manifest
  {
    if "task" in m.values {
      assert ValueOf(m, "task").GetOr("default") == m.values["task"];
      TaskProgramShape(cfg.manifestFilename, m.values["task"]);
    } else {
      assert ValueOf(m, "task").GetOr("default") == "default";
      TaskProgramShape(cfg.manifestFilename, "default");
    }
  }

  /** With a manifest, `inspect` issues one `uv run python -c P` that lists the tasks. */
  lemma InspectProgramText(cfg: Config, m: Matches, w: World)
    requires w.manifest.Some?
    ensures var r := Dispatch(cfg, "inspect", Some(m), w);
      && r.issued == [Invocation(Interactive, "uv", ["run", "python", "-c",
           "exec(open(\"" + cfg.manifestFilename + "\").read()); import hellbox; " + "hellbox.Hellbox.inspect()"])]
      && r.ending == RunCommand("uv", w.children(0))
      && r.manifest == w.manifest
  {
    InspectProgramShape(cfg.manifestFilename);
  }

  /**
   * `init` runs `uv init`, then `uv add <hellbox package>`, then the manifest
   * step, each only if the one before returned an exit code; the first step
   * without one ends the chain with its error.
   */
  lemma InitChain(cfg: Config, m: Matches, w: World)
    ensures var r := Dispatch(cfg, "init", Some(m), w);
      var first := Invocation(Interactive, "uv", ["init"]);
      var second := Invocation(Interactive, "uv", ["add", cfg.hellboxPackage]);
      && (!HasCode(w.children(0)) ==>
            r == Run(RunCommand("uv", w.children(0)), [first], w.manifest))
      && (HasCode(w.children(0)) && !HasCode(w.children(1)) ==>
            r == Run(RunCommand("uv", w.children(1)), [first, second], w.manifest))
      && (HasCode(w.children(0)) && HasCode(w.children(1)) ==>
            && r.issued == [first, second]
            && (r.ending, r.manifest) == CreateManifest(w.manifest, w.creation))
  {
  }

  /** Running `init` again after an `init` that left a manifest never changes that file. */
  lemma InitTwice(cfg: Config, m: Matches, w: World, w': World)
    requires Dispatch(cfg, "init", Some(m), w).manifest.Some?
    requires w'.manifest == Dispatch(cfg, "init", Some(m), w).manifest
    ensures Dispatch(cfg, "init", Some(m), w').manifest == w'.manifest
  {
  }

  /** `environment` and `_postinstall` always succeed, whatever their probes report. */
  lemma InformationalCommands(cfg: Config, m: Matches, w: World)
    ensures Dispatch(cfg, "environment", Some(m), w) == Run(Ok(0),
      [ Invocation(Captured, "uv", ["run", "pip", "list"]),
        Invocation(Captured, "python", ["--version"]),
        Invocation(Captured, "uv", ["--version"]) ], w.manifest)
    ensures Dispatch(cfg, "_postinstall", Some(m), w) ==
      Run(Ok(0), [Invocation(Silenced, "uv", ["--version"])], w.manifest)
  {
  }

  /**
   * With the configuration `main` builds, `run` without a task name runs the
   * `default` task of `Hellfile.py`.
   */
  lemma DefaultRun(w: World)
    requires w.manifest.Some?
    ensures Dispatch(Defaults, "run", Some(Matches(map[])), w).issued ==
      [Invocation(Interactive, "uv", ["run", "python", "-c",
         "exec(open(\"" + "Hellfile.py" + "\").read()); import hellbox; hellbox.Hellbox.run_task(\""
         + "default" + "\")"])]
  {
    RunProgramText(Defaults, Matches(map[]), w);
  }

  /** With the configuration `main` builds, `init` adds the hellbox package from its git URL. */
  lemma DefaultInit(w: World)
    requires HasCode(w.children(0))
    ensures Dispatch(Defaults, "init", Some(Matches(map[])), w).issued[1] ==
      Invocation(Interactive, "uv", ["add", "git+git://github.com/hellboxpy/hellbox.git#egg=hellbox"])
  {
    InitChain(Defaults, Matches(map[]), w);
  }
}

=== FILE: manifest.dfy ===
/**
 * `create_manifest`: writes the bootstrap manifest file when, and only
 * when, no file exists at its path. The file system is reduced to the
 * contents of that one path (`None` when nothing exists there).
 */
module Manifest {
  import opened Wrappers
  import opened Process

  /** The fixed bootstrap text written into a fresh manifest. */
  const Payload: string := "from hellbox import Hellbox\n\nHellbox.autoimport()"

  /**
   * What the file system does when asked to create the file: `File::create`
   * fails, the file is created but `write_all` fails after `written` bytes,
   * or the whole payload is written.
   */
  datatype Creation = CreateFails | WriteFails(written: nat) | WriteSucceeds

  function Min(a: nat, b: nat): nat {
    if a <= b then a else b
  }

  /** `create_manifest` on the file currently at the path, with its new contents. */
  function CreateManifest(existing: Option<string>, creation: Creation): (r: (Ending, Option<string>))
    ensures existing.Some? ==> r == (Ok(0), existing)
    ensures existing.None? && creation.WriteSucceeds? ==> r == (Ok(0), Some(Payload))
    ensures r.0.Ok? ==> r.0.code == 0 && r.1.Some?
    ensures r.0.Err? <==> existing.None? && creation.WriteFails?
    ensures r.0.Err? ==> r.0.message == "Hellbox.py failed to write"
    ensures r.0.Panic? <==> existing.None? && creation.CreateFails?
    ensures r.0.Panic? ==> r.1.None?
    ensures r.1.Some? ==> r.1 == existing || (|r.1.value| <= |Payload| && Payload[..|r.1.value|] == r.1.value)
  {
    if existing.None? then
      match creation
      case CreateFails => (Panic("file wasn't created"), None)
      case WriteFails(written) =>
        (Err("Hellbox.py failed to write"), Some(Payload[..Min(written, |Payload|)]))
      case WriteSucceeds => (Ok(0), Some(Payload))
    else
      (Ok(0), existing)
  }

  /**
   * A second `create_manifest` after one that did not panic writes nothing
   * and succeeds, whatever the file system would do.
   */
  lemma CreateTwice(existing: Option<string>, first: Creation, second: Creation)
    requires !CreateManifest(existing, first).0.Panic?
    ensures var after := CreateManifest(existing, first).1;
      CreateManifest(after, second) == (Ok(0), after)
  {
  }

  /**
   * A failed write leaves a truncated manifest behind, and no later
   * `create_manifest` ever replaces it with the full payload.
   */
  lemma FailedWriteIsPermanent(written: nat, later: Creation)
    requires written < |Payload|
    ensures var after := CreateManifest(None, WriteFails(written)).1;
      && after.Some? && after.value != Payload
      && CreateManifest(after, later) == (Ok(0), after)
  {
  }
}

=== FILE: packages.dfy ===
/**
 * The pure part of `check_package_version`: from the captured output of
 * `uv run pip list`, pick the first line that starts with the package name
 * and collapse its whitespace to single spaces.
 */
module Packages {
  import opened Wrappers
  import opened Text
  import opened Process

  /** The position of the first line starting with `prefix`, or `|lines|` (Rust's `find`). */
  function FirstIndex(lines: seq<string>, prefix: string): (k: nat)
    ensures k <= |lines|
    ensures forall j :: 0 <= j < k ==> !StartsWith(lines[j], prefix)
    ensures k < |lines| ==> StartsWith(lines[k], prefix)
  {
    if lines == [] then 0
    else if StartsWith(lines[0], prefix) then 0
    else 1 + FirstIndex(lines[1..], prefix)
  }

  /**
   * `trim_end().split_whitespace().collect().join(" ")`: the line with its
   * whitespace collapsed, character by character.
   */
  function Normalise(line: string): (r: string)
    ensures r == Collapse(line)
  {
    TrimEndKeepsWords(line);
    SplitJoinCollapse(line);
    Join(SplitWhitespace(TrimEnd(line)), " ")
  }

  /**
   * The normalised line is in normal form, keeps exactly the tokens of the
   * original line, and is the only normal-form string with those tokens.
   */
  lemma NormaliseSpec(line: string, s: string)
    ensures Canonical(Normalise(line))
    ensures SplitWhitespace(Normalise(line)) == SplitWhitespace(line)
    ensures Canonical(s) && SplitWhitespace(s) == SplitWhitespace(line) ==> s == Normalise(line)
  {
    var ws := SplitWhitespace(TrimEnd(line));
    TrimEndKeepsWords(line);
    JoinWordsCanonical(ws);
    SplitJoin(ws);
    if Canonical(s) && SplitWhitespace(s) == SplitWhitespace(line) {
      CanonicalIsJoin(s);
    }
  }

  /** Normalising twice is normalising once. */
  lemma NormaliseIdempotent(line: string)
    ensures Normalise(Normalise(line)) == Normalise(line)
  {
    var n := Normalise(line);
    NormaliseSpec(line, n);
    NormaliseSpec(n, n);
  }

  /**
   * A line that starts with a non-empty, whitespace-free name still starts
   * with it after normalisation.
   */
  lemma NormaliseKeepsName(line: string, name: string)
    requires IsWord(name) && StartsWith(line, name)
    ensures StartsWith(Normalise(line), name)
  {
    var t := TrimEnd(line);
    assert line[|name| - 1] == name[|name| - 1];
    assert |t| >= |name|;
    assert t[..|name|] == line[..|name|];
    assert forall i :: 0 <= i < |name| ==> t[i] == name[i];
    var n := WordLength(t);
    assert n >= |name|;
    assert !IsWhitespace(t[0]) by {
      assert t[0] == name[0];
    }
    var ws := SplitWhitespace(t);
    assert ws[0] == t[..n];
    JoinWordsShape(ws);
    assert t[..n][..|name|] == name;
  }

  /**
   * The selected, normalised package line of a `pip list` listing, or `None`
   * when no line starts with `name`.
   */
  function PackageLine(stdout: string, name: string): (r: Option<string>)
    ensures var ls := Lines(stdout);
      r.None? <==> forall j :: 0 <= j < |ls| ==> !StartsWith(ls[j], name)
  {
    var ls := Lines(stdout);
    var k := FirstIndex(ls, name);
    if k == |ls| then None else Some(Normalise(ls[k]))
  }

  /**
   * A package line has exactly the tokens of the first matching line of the
   * listing, is in single-space normal form, and is led by the name whenever
   * the name is one whitespace-free word.
   */
  lemma PackageLineSpec(stdout: string, name: string, r: string)
    requires PackageLine(stdout, name) == Some(r)
    ensures SplitWhitespace(r) == SplitWhitespace(Lines(stdout)[FirstIndex(Lines(stdout), name)])
    ensures Canonical(r)
    ensures IsWord(name) ==> StartsWith(r, name)
  {
    var ls := Lines(stdout);
    var k := FirstIndex(ls, name);
    NormaliseSpec(ls[k], ls[k]);
    if IsWord(name) {
      NormaliseKeepsName(ls[k], name);
    }
  }

  /**
   * `check_package_version`: a version is reported exactly when the listing
   * ran and one of its lines starts with the name. The report has the tokens
   * of the first such line, is in single-space normal form, and is led by a
   * whitespace-free name.
   */
  function CheckPackageVersion(name: string, listing: Child): (r: Option<string>)
    ensures var ls := if listing.Ran? then Lines(listing.stdout) else [];
      && (r.Some? <==> listing.Ran? && exists j :: 0 <= j < |ls| && StartsWith(ls[j], name))
      && (r.Some? ==> SplitWhitespace(r.value) == SplitWhitespace(ls[FirstIndex(ls, name)]))
      && (r.Some? ==> Canonical(r.value) && (IsWord(name) ==> StartsWith(r.value, name)))
  {
    match listing
    case Ran(_, stdout) =>
      var r := PackageLine(stdout, name);
      if r.Some? then
        PackageLineSpec(stdout, name, r.value);
        var ls := Lines(stdout);
        assert StartsWith(ls[FirstIndex(ls, name)], name);
        r
      else r
    case _ => None
  }
}

=== FILE: process.dfy ===
/**
 * External processes as the CLI sees them: the invocation it issues and the
 * outcome the operating system reports back. Spawning and waiting are not
 * modelled; each invocation made through `run_command` is paired with a
 * `Child` outcome supplied from outside.
 */
module Process {
  /** A Rust `i32`, the type of a process exit code. */
  type Code = x: int | -0x8000_0000 <= x < 0x8000_0000

  /** `ExitStatus::code()`: `None` when the child was ended by a signal. */
  datatype Status = Exited(code: Code) | NoCode

  /**
   * What happened to one child process: it could not be spawned, waiting on
   * it failed, or it ran to completion with a status and (when captured) its
   * standard output.
   */
  datatype Child = SpawnFailed | WaitFailed | Ran(status: Status, stdout: string)

  /**
   * How the child's standard streams are wired:
   * `Interactive` — stdin null, stdout and stderr inherited (`run_command`);
   * `Captured`    — stdout captured (`Command::output`);
   * `Silenced`    — stdout and stderr discarded (`check_command`).
   */
  datatype Mode = Interactive | Captured | Silenced

  /** One external program run: a tool name and its argument vector. */
  datatype Invocation = Invocation(mode: Mode, tool: string, args: seq<string>)

  /**
   * How a piece of the CLI ends: Rust's `Result<i32, String>` (`Ok`/`Err`),
   * or a panic raised by an `.expect()` that aborts the whole program.
   */
  datatype Ending = Ok(code: Code) | Err(message: string) | Panic(message: string)

  /** The child reported an exit code. */
  predicate HasCode(child: Child) {
    child.Ran? && child.status.Exited?
  }

  /**
   * `run_command`: translates the outcome of an interactive child into the
   * CLI's result. Any exit code, zero or not, is success carrying that code;
   * only a missing code is an error; spawn and wait failures panic.
   */
  function RunCommand(tool: string, child: Child): (e: Ending)
    ensures e.Ok? <==> HasCode(child)
    ensures e.Ok? ==> e.code == child.status.code
    ensures e.Err? <==> child.Ran? && child.status.NoCode?
    ensures e.Err? ==> e.message == tool + " failed with no status code"
    ensures e.Panic? <==> !child.Ran?
  {
    match child
    case SpawnFailed => Panic("Command failed to run")
    case WaitFailed => Panic("Command wasn't running")
    case Ran(NoCode, _) => Err(tool + " failed with no status code")
    case Ran(Exited(code), _) => Ok(code)
  }
}

=== FILE: program.dfy ===
/**
 * The inline Python program handed to `python -c` for `run` and `inspect`.
 * It executes the manifest file, imports `hellbox` and then runs the given
 * statements. Both the file path and the task name are spliced in between
 * double quotes as they are, without any escaping.
 */
module Program {
  import opened Wrappers
  import opened Text

  /** The statement that runs one named task. */
  function TaskCall(name: string): string {
    "hellbox.Hellbox.run_task(\"" + name + "\")"
  }

  /** The statement that lists the defined tasks. */
  const InspectCall: string := "hellbox.Hellbox.inspect()"

  /** The text of the program up to the opening quote of the file path. */
  const FilePrefix: string := "exec(open(\""

  /**
   * `run_hellbox_commands`: the program text before it is passed to `-c`.
   * The file-path literal holds exactly `filepath`, and Python closes it
   * where it was meant to close exactly when `filepath` is a literal body.
   */
  function HellboxProgram(filepath: string, commands: seq<string>): (p: string)
    ensures StartsWith(p, FilePrefix) && |p| > |FilePrefix| + |filepath|
    ensures p[|FilePrefix|..|FilePrefix| + |filepath|] == filepath
    ensures p[|FilePrefix| + |filepath|] == '"'
    ensures LiteralEnd(p, |FilePrefix|) == Some(|FilePrefix| + |filepath|) <==> LiteralBody(filepath)
  {
    var rest := "\").read()); import hellbox; " + Join(commands, "; ");
    var p := FilePrefix + filepath + rest;
    Slices(FilePrefix, filepath, rest);
    LiteralEndAt(p, |FilePrefix|, |FilePrefix| + |filepath|);
    p
  }

  /** The text of the program up to the opening quote of the task name. */
  function TaskPrefix(filepath: string): string {
    "exec(open(\"" + filepath + "\").read()); import hellbox; hellbox.Hellbox.run_task(\""
  }

  // ---------------------------------------------------------------------
  // Python short string literals (section 2.4.1 of the Python Language
  // Reference): a backslash takes the next character with it, and an
  // unescaped line break ends the line before the literal is closed. An
  // opening quote followed by two more opens a triple-quoted literal
  // instead, with other closing rules; that reading is not modelled here.

  /** A character that ends an open short literal unless it is escaped. */
  predicate Stops(c: char) {
    c == '"' || c == '\n' || c == '\r'
  }

  /** The number of backslashes standing right before position `m` of `s`. */
  function Backslashes(s: string, m: nat): (n: nat)
    requires m <= |s|
    ensures n <= m
  {
    if m == 0 || s[m - 1] != '\\' then 0 else 1 + Backslashes(s, m - 1)
  }

  /** Position `m` of `s` is escaped: an odd run of backslashes stands right before it. */
  predicate Escaped(s: string, m: nat)
    requires m <= |s|
  {
    Backslashes(s, m) % 2 == 1
  }

  /**
   * `s` can stand between the quotes of a short literal and be read whole:
   * every quote and line break in it is escaped, and it does not end in an
   * escape that would take the closing quote.
   */
  predicate LiteralBody(s: string) {
    && (forall m :: 0 <= m < |s| && Stops(s[m]) ==> Escaped(s, m))
    && !Escaped(s, |s|)
  }

  /**
   * Python's reading of a short double-quoted literal opened just before
   * `i`: the index of the quote that closes it, or `None` when a line break
   * or the end of the text comes first. When `p[i..]` opens with two quotes
   * Python reads a triple-quoted literal instead, which this does not follow.
   */
  function LiteralEnd(p: string, i: nat): (r: Option<nat>)
    requires i <= |p|
    ensures r.Some? ==> i <= r.value < |p| && p[r.value] == '"'
    decreases |p| - i
  {
    if i == |p| then None
    else if p[i] == '"' then Some(i)
    else if p[i] == '\n' || p[i] == '\r' then None
    else if p[i] == '\\' then (if i + 1 == |p| then None else LiteralEnd(p, i + 2))
    else LiteralEnd(p, i + 1)
  }

  /** A character other than a backslash ends every run of backslashes before it. */
  lemma {:induction false} BackslashesCons(c: char, t: string, m: nat)
    requires c != '\\' && m <= |t|
    ensures Backslashes([c] + t, m + 1) == Backslashes(t, m)
  {
    var u := [c] + t;
    assert u[m] == if m == 0 then c else t[m - 1];
    if m > 0 && t[m - 1] == '\\' {
      BackslashesCons(c, t, m - 1);
    }
  }

  /** An escape pair in front changes no run of backslashes after it by an odd amount. */
  lemma {:induction false} BackslashesPair(d: char, t: string, m: nat)
    requires m <= |t|
    ensures Backslashes(['\\', d] + t, m + 2) % 2 == Backslashes(t, m) % 2
  {
    var u := ['\\', d] + t;
    assert u[0] == '\\' && u[1] == d;
    if m == 0 {
      assert Backslashes(u, 1) == 1;
    } else {
      assert u[m + 1] == t[m - 1];
      if t[m - 1] == '\\' {
        BackslashesPair(d, t, m - 1);
      }
    }
  }

  /** A plain character in front of a literal body changes nothing about it. */
  lemma BodyPlain(c: char, t: string)
    requires c != '\\' && !Stops(c)
    ensures LiteralBody([c] + t) <==> LiteralBody(t)
  {
    var u := [c] + t;
    forall m | 0 <= m <= |t|
      ensures Escaped(u, m + 1) <==> Escaped(t, m)
    {
      BackslashesCons(c, t, m);
    }
    BodyShift(u, t, 1);
  }

  /** An escape pair in front of a literal body changes nothing about it. */
  lemma BodyPair(d: char, t: string)
    ensures LiteralBody(['\\', d] + t) <==> LiteralBody(t)
  {
    var u := ['\\', d] + t;
    forall m | 0 <= m <= |t|
      ensures Escaped(u, m + 2) <==> Escaped(t, m)
    {
      BackslashesPair(d, t, m);
    }
    assert Backslashes(u, 1) == 1;
    BodyShift(u, t, 2);
  }

  /**
   * Text in front of a literal body whose own stops are escaped, and which
   * shifts the escapes after it without changing them, changes nothing.
   */
  lemma BodyShift(u: string, t: string, k: nat)
    requires |u| == k + |t|
    requires forall m :: 0 <= m < |t| ==> u[k + m] == t[m]
    requires forall m :: 0 <= m <= |t| ==> (Escaped(u, k + m) <==> Escaped(t, m))
    requires forall m :: 0 <= m < k && Stops(u[m]) ==> Escaped(u, m)
    ensures LiteralBody(u) <==> LiteralBody(t)
  {
    if LiteralBody(t) {
      forall m | 0 <= m < |u| && Stops(u[m]) ensures Escaped(u, m) {
        if m >= k {
          assert u[k + (m - k)] == t[m - k];
        }
      }
    }
    if LiteralBody(u) {
      forall m | 0 <= m < |t| && Stops(t[m]) ensures Escaped(t, m) {
        assert Stops(u[k + m]);
      }
    }
    assert Escaped(u, k + |t|) <==> Escaped(t, |t|);
  }

  /**
   * A literal opened before `i` is closed by the quote at `j` exactly when
   * the text between is a literal body.
   */
  lemma {:induction false} LiteralEndAt(p: string, i: nat, j: nat)
    requires i <= j < |p| && p[j] == '"'
    ensures LiteralEnd(p, i) == Some(j) <==> LiteralBody(p[i..j])
    decreases j - i
  {
    var s := p[i..j];
    if i < j {
      assert s[0] == p[i];
      if p[i] == '"' || p[i] == '\n' || p[i] == '\r' {
        assert Stops(s[0]) && Backslashes(s, 0) == 0;
      } else if p[i] == '\\' {
        if j == i + 1 {
          assert Backslashes(s, 1) == 1;
        } else {
          LiteralEndAt(p, i + 2, j);
          assert s == ['\\', p[i + 1]] + p[i + 2..j];
          BodyPair(p[i + 1], p[i + 2..j]);
        }
      } else {
        LiteralEndAt(p, i + 1, j);
        assert s == [p[i]] + p[i + 1..j];
        BodyPlain(p[i], p[i + 1..j]);
      }
    }
  }

  /** Names that read whole, and names that do not. */
  lemma LiteralBodyExamples()
    ensures LiteralBody("default") && LiteralBody("a\\\\") && LiteralBody("a\\\"b")
    ensures !LiteralBody("a\\") && !LiteralBody("a\"b") && !LiteralBody("a\nb")
  {
    assert Backslashes("a\\", 2) == 1;
    assert Backslashes("a\\\\", 3) == 2;
    assert Backslashes("a\\\"b", 2) == 1;
    assert Stops("a\"b"[1]) && Backslashes("a\"b", 1) == 0;
    assert Stops("a\nb"[1]) && Backslashes("a\nb", 1) == 0;
  }

  /**
   * The task-name literal of the `run` program holds exactly `name`, and
   * Python closes it where it was meant to close exactly when `name` is a
   * literal body: an unescaped quote closes it early, a line break or a
   * trailing lone backslash leaves it open.
   */
  lemma TaskLiteral(filepath: string, name: string)
    ensures var p := HellboxProgram(filepath, [TaskCall(name)]);
      var k := |TaskPrefix(filepath)|;
      && StartsWith(p, TaskPrefix(filepath))
      && p[k..k + |name|] == name
      && p[k + |name|..] == "\")"
      && (LiteralEnd(p, k) == Some(k + |name|) <==> LiteralBody(name))
  {
    TaskProgramShape(filepath, name);
    QuotedBetween(TaskPrefix(filepath), name, "\")");
  }

  /**
   * In the `run` program, the task name `a\` leaves its literal open up to
   * the end of the text, and the name `a"b` has it closed after the `a`.
   */
  lemma TaskLiteralExamples(filepath: string)
    ensures var k := |TaskPrefix(filepath)|;
      && LiteralEnd(HellboxProgram(filepath, [TaskCall("a\\")]), k) == None
      && LiteralEnd(HellboxProgram(filepath, [TaskCall("a\"b")]), k) == Some(k + 1)
  {
    TaskProgramShape(filepath, "a\\");
    TaskProgramShape(filepath, "a\"b");
    OpenAndEarlyClose(TaskPrefix(filepath));
  }

  /** The two cases of `TaskLiteralExamples` after any prefix. */
  lemma OpenAndEarlyClose(pre: string)
    ensures LiteralEnd(pre + "a\\" + "\")", |pre|) == None
    ensures LiteralEnd(pre + "a\"b" + "\")", |pre|) == Some(|pre| + 1)
  {
    var k := |pre|;
    var p := pre + "a\\" + "\")";
    assert |p| == k + 4 && p[k] == 'a' && p[k + 1] == '\\' && p[k + 3] == ')';
    assert LiteralEnd(p, k + 3) == None;
    var q := pre + "a\"b" + "\")";
    assert q[k] == 'a' && q[k + 1] == '"';
  }

  /** In `pre + body + post`, with `post` opening with a quote, the literal opened before `body` closes as `LiteralEndAt` says. */
  lemma QuotedBetween(pre: string, body: string, post: string)
    requires post != [] && post[0] == '"'
    ensures var p := pre + body + post;
      var k := |pre|;
      && StartsWith(p, pre)
      && p[k..k + |body|] == body
      && p[k + |body|..] == post
      && (LiteralEnd(p, k) == Some(k + |body|) <==> LiteralBody(body))
  {
    var p := pre + body + post;
    Slices(pre, body, post);
    assert p[|pre| + |body|] == post[0];
    LiteralEndAt(p, |pre|, |pre| + |body|);
  }

  lemma TaskProgramShape(filepath: string, name: string)
    ensures HellboxProgram(filepath, [TaskCall(name)]) == TaskPrefix(filepath) + name + "\")"
  {
  }

  lemma InspectProgramShape(filepath: string)
    ensures HellboxProgram(filepath, [InspectCall])
      == "exec(open(\"" + filepath + "\").read()); import hellbox; " + "hellbox.Hellbox.inspect()"
  {
    assert Join([InspectCall], "; ") == InspectCall;
  }

  /** The three parts of `a + b + c` are where they should be. */
  lemma Slices(a: string, b: string, c: string)
    ensures var p := a + b + c;
      && p[..|a|] == a
      && p[|a|..|a| + |b|] == b
      && p[|a| + |b|..] == c
  {
  }
}

=== FILE: text.dfy ===
/**
 * The parts of Rust's `str` API that the package-line normaliser relies on:
 * `char::is_whitespace`, `starts_with`, `trim_end`, `split_whitespace`,
 * `lines` and `join`, over strings of Unicode scalar values.
 */
module Text {

  /** Rust's `char::is_whitespace`: the Unicode White_Space property. */
  predicate IsWhitespace(c: char) {
    || ('\t' <= c <= '\r')
    || c == ' '
    || c == '\U{0085}'
    || c == '\U{00A0}'
    || c == '\U{1680}'
    || ('\U{2000}' <= c <= '\U{200A}')
    || c == '\U{2028}'
    || c == '\U{2029}'
    || c == '\U{202F}'
    || c == '\U{205F}'
    || c == '\U{3000}'
  }

  predicate StartsWith(s: string, prefix: string) {
    |prefix| <= |s| && s[..|prefix|] == prefix
  }

  /** A token as produced by `split_whitespace`: non-empty, no whitespace in it. */
  predicate IsWord(w: string) {
    w != [] && forall i :: 0 <= i < |w| ==> !IsWhitespace(w[i])
  }

  predicate AllWords(ws: seq<string>) {
    forall i :: 0 <= i < |ws| ==> IsWord(ws[i])
  }

  predicate AllWhitespace(s: string) {
    forall i :: 0 <= i < |s| ==> IsWhitespace(s[i])
  }

  /**
   * The normal form the package-line normaliser aims at: every whitespace
   * character is a single space standing between two non-whitespace
   * characters, so there is no leading or trailing whitespace and no run of
   * two spaces.
   */
  predicate Canonical(s: string) {
    && (s != [] ==> !IsWhitespace(s[0]) && !IsWhitespace(s[|s| - 1]))
    && (forall i :: 0 <= i < |s| && IsWhitespace(s[i]) ==> s[i] == ' ')
    && (forall i :: 0 < i < |s| ==> !WhitespaceRun(s, i))
  }

  /** Positions `i - 1` and `i` of `s` are both whitespace. */
  predicate WhitespaceRun(s: string, i: int)
    requires 0 < i < |s|
  {
    IsWhitespace(s[i - 1]) && IsWhitespace(s[i])
  }

  /** Rust's `trim_end`: drops the longest all-whitespace suffix. */
  function TrimEnd(s: string): (t: string)
    ensures |t| <= |s| && t == s[..|t|]
    ensures t == [] || !IsWhitespace(t[|t| - 1])
    ensures AllWhitespace(s[|t|..])
  {
    if s != [] && IsWhitespace(s[|s| - 1]) then
      var u := s[..|s| - 1];
      var t := TrimEnd(u);
      assert t == s[..|t|] by {
        assert u[..|t|] == s[..|t|];
      }
      assert s[|t|..] == u[|t|..] + [s[|s| - 1]];
      t
    else
      assert s[|s|..] == [];
      s
  }

  /** The length of the leading run of non-whitespace characters of `s`. */
  function WordLength(s: string): (n: nat)
    ensures n <= |s|
    ensures forall i :: 0 <= i < n ==> !IsWhitespace(s[i])
    ensures n < |s| ==> IsWhitespace(s[n])
  {
    if s == [] || IsWhitespace(s[0]) then 0 else 1 + WordLength(s[1..])
  }

  /** Rust's `split_whitespace`: the maximal whitespace-free runs, in order. */
  function SplitWhitespace(s: string): (ws: seq<string>)
    ensures AllWords(ws)
    ensures ws == [] <==> AllWhitespace(s)
    decreases |s|
  {
    if s == [] then []
    else if IsWhitespace(s[0]) then SplitWhitespace(s[1..])
    else
      var n := WordLength(s);
      [s[..n]] + SplitWhitespace(s[n..])
  }

  /** Rust's `join` on a slice of strings. */
  function Join(parts: seq<string>, sep: string): string
  {
    if |parts| == 0 then ""
    else if |parts| == 1 then parts[0]
    else parts[0] + sep + Join(parts[1..], sep)
  }

  /** The index of the first `'\n'` of `s`, or `|s|` when there is none. */
  function LineEnd(s: string): (n: nat)
    ensures n <= |s|
    ensures '\n' !in s[..n]
    ensures n < |s| ==> s[n] == '\n'
  {
    if s == [] || s[0] == '\n' then 0
    else
      var n := 1 + LineEnd(s[1..]);
      assert s[..n] == [s[0]] + s[1..][..n - 1];
      n
  }

  /** Drops one trailing carriage return, as `lines` does before a line feed. */
  function StripCr(line: string): string
  {
    if line != [] && line[|line| - 1] == '\r' then line[..|line| - 1] else line
  }

  /**
   * Rust's `str::lines`: splits at `"\n"` or `"\r\n"`; the final line ending
   * is optional and an empty input has no lines.
   */
  function Lines(s: string): (ls: seq<string>)
    ensures forall i :: 0 <= i < |ls| ==> '\n' !in ls[i]
    ensures ls == [] <==> s == []
    decreases |s|
  {
    if s == [] then []
    else
      var n := LineEnd(s);
      if n == |s| then [s]
      else [StripCr(s[..n])] + Lines(s[n + 1..])
  }

  // ---------------------------------------------------------------------
  // Words

  /** `WordLength` is characterised by its contract. */
  lemma WordLengthUnique(s: string, n: nat)
    requires n <= |s|
    requires forall i :: 0 <= i < n ==> !IsWhitespace(s[i])
    requires n < |s| ==> IsWhitespace(s[n])
    ensures WordLength(s) == n
  {
  }

  /** A word followed by whitespace (or nothing) splits off as the first token. */
  lemma SplitWordThen(w: string, t: string)
    requires IsWord(w)
    requires t == [] || IsWhitespace(t[0])
    ensures SplitWhitespace(w + t) == [w] + SplitWhitespace(t)
  {
    var s := w + t;
    assert s[0] == w[0];
    WordLengthUnique(s, |w|);
    assert s[..|w|] == w;
    assert s[|w|..] == t;
  }

  /** Whitespace at the end never changes the tokens. */
  lemma {:induction false} SplitTrailing(t: string, tail: string)
    requires AllWhitespace(tail)
    ensures SplitWhitespace(t + tail) == SplitWhitespace(t)
    decreases |t|
  {
    var s := t + tail;
    if t == [] {
      assert s == tail;
    } else if IsWhitespace(t[0]) {
      assert s[1..] == t[1..] + tail;
      SplitTrailing(t[1..], tail);
    } else {
      var n := WordLength(t);
      WordLengthUnique(s, n);
      assert s[..n] == t[..n];
      assert s[n..] == t[n..] + tail;
      SplitTrailing(t[n..], tail);
    }
  }

  /** `trim_end` before `split_whitespace` makes no difference to the tokens. */
  lemma TrimEndKeepsWords(s: string)
    ensures SplitWhitespace(TrimEnd(s)) == SplitWhitespace(s)
  {
    var t := TrimEnd(s);
    assert s == t + s[|t|..];
    SplitTrailing(t, s[|t|..]);
  }

  /** Joining words with single spaces gives a non-empty string led by the first word. */
  lemma {:induction false} JoinWordsShape(ws: seq<string>)
    requires AllWords(ws) && ws != []
    ensures var r := Join(ws, " ");
      && StartsWith(r, ws[0])
      && !IsWhitespace(r[0])
      && !IsWhitespace(r[|r| - 1])
  {
    assert IsWord(ws[0]);
    if |ws| > 1 {
      assert AllWords(ws[1..]) by {
        forall i | 0 <= i < |ws[1..]| ensures IsWord(ws[1..][i]) {
          assert ws[1..][i] == ws[i + 1];
        }
      }
      JoinWordsShape(ws[1..]);
      var rest := Join(ws[1..], " ");
      var r := ws[0] + " " + rest;
      assert r == Join(ws, " ");
      assert r[..|ws[0]|] == ws[0];
      assert r[|r| - 1] == rest[|rest| - 1];
    }
  }

  /** Round trip: splitting words joined by single spaces gives the words back. */
  lemma {:induction false} SplitJoin(ws: seq<string>)
    requires AllWords(ws)
    ensures SplitWhitespace(Join(ws, " ")) == ws
  {
    if |ws| == 0 {
    } else if |ws| == 1 {
      assert IsWord(ws[0]);
      SplitWordThen(ws[0], []);
      assert ws[0] + [] == ws[0];
    } else {
      assert IsWord(ws[0]);
      assert AllWords(ws[1..]) by {
        forall i | 0 <= i < |ws[1..]| ensures IsWord(ws[1..][i]) {
          assert ws[1..][i] == ws[i + 1];
        }
      }
      var rest := Join(ws[1..], " ");
      var tail := " " + rest;
      assert Join(ws, " ") == ws[0] + tail;
      SplitWordThen(ws[0], tail);
      assert tail[1..] == rest;
      SplitJoin(ws[1..]);
      assert [ws[0]] + ws[1..] == ws;
    }
  }

  /** Words joined by single spaces are in the normal form. */
  lemma {:induction false} JoinWordsCanonical(ws: seq<string>)
    requires AllWords(ws)
    ensures Canonical(Join(ws, " "))
  {
    if |ws| == 1 {
      assert IsWord(ws[0]);
    } else if |ws| > 1 {
      AllWordsTail(ws);
      JoinWordsCanonical(ws[1..]);
      JoinWordsShape(ws[1..]);
      assert IsWord(ws[0]);
      CanonicalCons(ws[0], Join(ws[1..], " "));
    }
  }

  lemma AllWordsTail(ws: seq<string>)
    requires AllWords(ws) && ws != []
    ensures AllWords(ws[1..])
  {
    forall i | 0 <= i < |ws[1..]| ensures IsWord(ws[1..][i]) {
      assert ws[1..][i] == ws[i + 1];
    }
  }

  /** A word, one space, then a non-empty normal-form string is in normal form. */
  lemma CanonicalCons(w: string, rest: string)
    requires IsWord(w) && Canonical(rest) && rest != []
    ensures Canonical(w + " " + rest)
  {
    var s := w + " " + rest;
    var k := |w| + 1;
    assert forall i :: 0 <= i < |w| ==> s[i] == w[i];
    assert forall j :: 0 <= j < |rest| ==> s[j + k] == rest[j];
    assert s[|w|] == ' ';
    assert s[|s| - 1] == rest[|rest| - 1];
    forall i | 0 < i < |s| ensures !WhitespaceRun(s, i) {
      if i > k {
        assert !WhitespaceRun(rest, i - k);
      }
    }
  }

  /** What follows the first separating space of a normal-form string is in normal form. */
  lemma CanonicalTail(s: string, n: nat)
    requires Canonical(s) && n < |s| && IsWhitespace(s[n])
    ensures var rest := s[n + 1..];
      rest != [] && !IsWhitespace(rest[0]) && Canonical(rest)
  {
    var rest := s[n + 1..];
    assert n + 1 < |s|;
    assert !WhitespaceRun(s, n + 1);
    assert forall j :: 0 <= j < |rest| ==> rest[j] == s[j + n + 1];
    forall j | 0 < j < |rest| ensures !WhitespaceRun(rest, j) {
      assert !WhitespaceRun(s, j + n + 1);
    }
  }

  lemma JoinCons(w: string, ws: seq<string>, sep: string)
    requires ws != []
    ensures Join([w] + ws, sep) == w + sep + Join(ws, sep)
  {
    assert ([w] + ws)[1..] == ws;
  }

  /** A word ended by whitespace splits off, and the whitespace after it is skipped. */
  lemma SplitAfterWord(s: string)
    requires Canonical(s) && s != [] && WordLength(s) < |s|
    ensures SplitWhitespace(s) == [s[..WordLength(s)]] + SplitWhitespace(s[WordLength(s) + 1..])
  {
    var n := WordLength(s);
    assert !IsWhitespace(s[0]) && n > 0;
    assert SplitWhitespace(s) == [s[..n]] + SplitWhitespace(s[n..]);
    var rest := s[n..];
    assert IsWhitespace(rest[0]);
    assert rest[1..] == s[n + 1..];
    assert SplitWhitespace(rest) == SplitWhitespace(rest[1..]);
  }

  /** The normal form is exactly the single-space join of its own tokens. */
  lemma {:induction false} CanonicalIsJoin(s: string)
    requires Canonical(s)
    ensures Join(SplitWhitespace(s), " ") == s
    decreases |s|
  {
    if s != [] {
      var n := WordLength(s);
      if n == |s| {
        SplitWholeWord(s);
      } else {
        var rest := s[n + 1..];
        CanonicalTail(s, n);
        SplitAfterWord(s);
        CanonicalIsJoin(rest);
        JoinCons(s[..n], SplitWhitespace(rest), " ");
        SplitAround(s, n);
      }
    }
  }

  /** A string with no whitespace at all is a single token. */
  lemma SplitWholeWord(s: string)
    requires s != [] && WordLength(s) == |s|
    ensures SplitWhitespace(s) == [s]
  {
    assert s[..|s|] == s;
    assert s[|s|..] == [];
  }

  /**
   * Whitespace collapsed character by character: whitespace before the first
   * word and after the last one is dropped, and each run of whitespace
   * between two words becomes one space.
   */
  function Collapse(s: string): string
    decreases |s|
  {
    if s == [] then ""
    else if IsWhitespace(s[0]) then Collapse(s[1..])
    else
      var gap := if |s| > 1 && IsWhitespace(s[1]) && !AllWhitespace(s[1..]) then " " else "";
      [s[0]] + gap + Collapse(s[1..])
  }

  /**
   * `split_whitespace` then `join(" ")` is `Collapse`, for every string: the
   * tokens are the whitespace-free runs of the input, in order.
   */
  lemma {:induction false} SplitJoinCollapse(s: string)
    ensures Join(SplitWhitespace(s), " ") == Collapse(s)
    decreases |s|
  {
    if s != [] {
      var t := s[1..];
      SplitJoinCollapse(t);
      if !IsWhitespace(s[0]) {
        var ts := SplitWhitespace(t);
        assert s == [s[0]] + t;
        if t == [] {
          SplitWholeWord(s);
        } else if IsWhitespace(t[0]) {
          SplitWordThen([s[0]], t);
          if ts != [] {
            JoinCons([s[0]], ts, " ");
          }
        } else {
          WordExtends(s);
          JoinHead(s[0], ts, " ");
        }
      }
    }
  }

  /** A word that goes on past its first character is the first token of the rest, extended. */
  lemma WordExtends(s: string)
    requires |s| > 1 && !IsWhitespace(s[0]) && !IsWhitespace(s[1])
    ensures var ts := SplitWhitespace(s[1..]);
      ts != [] && SplitWhitespace(s) == [[s[0]] + ts[0]] + ts[1..]
  {
    var t := s[1..];
    var n := WordLength(s);
    assert WordLength(s) == 1 + WordLength(t);
    assert t[0] == s[1];
    var m := WordLength(t);
    assert SplitWhitespace(t) == [t[..m]] + SplitWhitespace(t[m..]);
    assert s[..n] == [s[0]] + t[..m];
    assert s[n..] == t[m..];
  }

  /** Putting a character in front of the first part puts it in front of the join. */
  lemma JoinHead(c: char, ws: seq<string>, sep: string)
    requires ws != []
    ensures Join([[c] + ws[0]] + ws[1..], sep) == [c] + Join(ws, sep)
  {
    var vs := [[c] + ws[0]] + ws[1..];
    assert vs[1..] == ws[1..];
  }

  // ---------------------------------------------------------------------
  // Lines

  predicate EndsWithNewline(s: string) {
    s != [] && s[|s| - 1] == '\n'
  }

  predicate NoCarriageReturn(s: string) {
    forall i :: 0 <= i < |s| ==> s[i] != '\r'
  }

  /**
   * Without carriage returns `lines` loses nothing but the optional final
   * line feed: joining the lines with `"\n"` rebuilds the input.
   */
  lemma {:induction false} LinesRoundTrip(s: string)
    requires NoCarriageReturn(s)
    ensures Join(Lines(s), "\n") + (if EndsWithNewline(s) then "\n" else "") == s
    decreases |s|
  {
    if s != [] {
      var n := LineEnd(s);
      if n < |s| {
        var line := s[..n];
        var rest := s[n + 1..];
        LinesFirst(s);
        LinesRoundTrip(rest);
        if rest == [] {
        } else {
          JoinCons(line, Lines(rest), "\n");
          assert s[|s| - 1] == rest[|rest| - 1];
        }
      } else {
        assert s[..n][|s| - 1] == s[|s| - 1];
      }
    }
  }

  /** Without carriage returns, the first line is everything before the first line feed. */
  lemma LinesFirst(s: string)
    requires NoCarriageReturn(s) && s != [] && LineEnd(s) < |s|
    ensures var n := LineEnd(s);
      && Lines(s) == [s[..n]] + Lines(s[n + 1..])
      && NoCarriageReturn(s[n + 1..])
      && s == s[..n] + "\n" + s[n + 1..]
  {
    var n := LineEnd(s);
    var line := s[..n];
    assert line != [] ==> line[|line| - 1] == s[n - 1];
    NoCarriageReturnSuffix(s, n + 1);
    SplitAround(s, n);
  }

  lemma NoCarriageReturnSuffix(s: string, k: nat)
    requires NoCarriageReturn(s) && k <= |s|
    ensures NoCarriageReturn(s[k..])
  {
    var rest := s[k..];
    assert forall i :: 0 <= i < |rest| ==> rest[i] == s[k + i];
  }

  lemma SplitAround(s: string, n: nat)
    requires n < |s|
    ensures s == s[..n] + [s[n]] + s[n + 1..]
  {
  }
}

=== FILE: wrappers.dfy ===
/** The optional-value type shared by the other modules. */
module Wrappers {

  /** Rust's `Option`: a value that may be absent. */
  datatype Option<+T> = None | Some(value: T) {

    /** Rust's `unwrap_or`: the held value, or `default` when there is none. */
    function GetOr(default: T): T {
      match this
      case Some(v) => v
      case None => default
    }
  }
}
